=== FILE: README.md ===
# Packet relay pipeline — a Dafny model

This project models the packet pipeline of a small relay server (`server.py`).
A capture task reads datagrams from a local UDP endpoint. When it cannot
connect, it replays a bundled sample file instead. Every packet it produces
goes into a list of recent packets and onto a hand-off queue. A stream
generator takes packets off that queue and sends each one to a viewer as a
server-push event (`data: <json>` followed by a blank line).

As written, the program's entry point (server.py:76-82) starts the sample
replayer directly: the line that would start the UDP capture task
(`listen_for_js8`, server.py:78) is commented out. The shipped program
therefore never connects or reads a datagram, and only the uncapped replay
path feeds the list and the queue. The capture task is still modelled
(`Capture.RunCapture`, `Capture.Listen`, `Capture.EmitLive`), since it is the
code the server would run with that line restored.

Sockets, threads, Flask and logging are not modelled. What remains is the
bookkeeping, written as pure functions over immutable sequences:

- `packets.dfy` (`Packets`): the packet record, the well-formedness
  invariant, the 1024-byte receive, and record construction.
- `store.dfy` (`PacketStore`): the capped append of the live path, limited
  to 100 entries, and the "most recent 100" reference it is proved against.
- `queue.dfy` (`DeliveryQueue`): the FIFO queue and a trace semantics for
  interleaved puts and gets, in which a read on an empty queue blocks until
  the next put.
- `json.dfy` (`Json`): the JSON text of a packet and a decoder for that text.
- `stream.dfy` (`EventStream`): event framing, a client-side event splitter,
  and the generator loop of one viewer session.
- `capture.dfy` (`Capture`): the shared state (the recent list and the
  queue), sample replay, the live receive loop, and the choice between them
  made by the connect step.
- `wrappers.dfy` (`Wrappers`): `Option`.

Inputs the program gets from the outside world are parameters:

- whether the connect succeeded (`connected`);
- what each receive returned (`RecvEvent`: a datagram with its arrival time,
  or an error);
- what each pass of the replay loop met (`ReplayStep`: the next record, or an
  exception; a file that cannot be loaded raises before the first record);
- how many events a viewer reads before disconnecting (`wanted`).

The model follows the code as written, including these behaviours worth
knowing:

- A receive error after a successful connect only ends the receive loop. It
  does not fall back to the sample replay (`Capture.RunCaptureControlFlow`).
- The sample path appends to the recent list with no cap, so that list can
  hold more than 100 entries (`Capture.SampleReplayIgnoresCapacity`). The cap
  holds only on the live path, starting from a list within the cap
  (`Capture.ListenKeepsStoreBounded`).
- At startup only the sample replayer runs (`Capture.StartupReplay`). The
  capture task with its connect, its receive loop and the 100-entry cap is
  never started, so in the shipped program the cap never applies and the
  list grows with every replayed record.
- A single queue is shared by all viewers. The model has one consumer.
- Replayed records are not validated. `size` need not equal the payload
  length for them, so `Packets.WellFormed` is proved only for live-captured
  packets.

## Model

| member | source | states |
|---|---|---|
| `Packets.Receive` | server.py:38 | A receive yields at most 1024 bytes. They are a prefix of the datagram, and the whole datagram when it fits. |
| `Packets.BuildPacket` | server.py:40-45 | A record built from received bytes is well formed: `size` equals the byte count, and the payload is those bytes in order, each 0..255. It carries the capture time. |
| `PacketStore.AppendCapped` | server.py:47-49 | Starting from at most 100 entries, the list still has at most 100 and equals the last 100 of the old list plus the new packet. Below 100, the packet is only added at the end. At 100 or more, exactly the oldest entry is dropped and the rest keep their order. The new packet is always last. |
| `PacketStore.AppendAllCappedKeepsMostRecent` | server.py:47-49 | Over any run of live appends that starts within the cap, the list is exactly the most recent 100 packets of the whole history, oldest first. |
| `DeliveryQueue.Get` | server.py:69 | A read gets something exactly when the queue is non-empty. It gets the oldest element, and the rest stay in order. |
| `DeliveryQueue.Put` | server.py:50 | A put adds exactly one element behind everything queued. It does not change which element a read takes next, unless the queue was empty, in which case the next read takes the new element. |
| `DeliveryQueue.RunIsFifo` | server.py:69 | For any interleaving of puts and gets, what was received plus what is still queued equals what was queued plus everything put, in order. The consumer receives a prefix of the puts: no reordering, loss or duplication. Every read is either answered or still blocked, and reads block only while the queue is empty. `Run` is characterized by this lemma. |
| `DeliveryQueue.BlockedReadTakesNextPut` | server.py:69 | From an empty channel, a read that blocks receives the next element put, that element is not left in the queue, and any operations after them run exactly as they would have without the pair. |
| `Json.Serialize` | server.py:72 | The JSON text of a packet opens with the `timestamp` key, then the timestamp's number text, and closes the object with `}`. The keys follow in build order with the default separators. Characterized by `Json.SerializeRoundTrip` and `Json.SerializeHasNoNewline`. |
| `Json.SerializeRoundTrip` | server.py:72 | The JSON text sent for any packet decodes back to the same timestamp, payload and size. |
| `Json.SerializeHasNoNewline` | server.py:72 | The JSON text of a packet is a single line, so it fits in one `data:` field. |
| `EventStream.Frame` | server.py:72 | An event is `data: `, then the payload, then the blank-line terminator `\n\n`. |
| `EventStream.Event` | server.py:72 | The event for one packet is `data: `, then exactly the packet's JSON text, then the blank-line terminator. Characterized by `EventStream.ViewerRecoversPackets`. |
| `EventStream.ParseConcatFrames` | server.py:72 | A client splitting a stream of such events gets back exactly the payloads, one per event and in order, provided no payload has a line break. |
| `EventStream.ViewerRecoversPackets` | server.py:72 | The events sent for a sequence of packets split and decode back to those packets, in order. |
| `EventStream.Generate` | server.py:66-72 | A session that reads `wanted` times sends one event per packet, for the oldest `min(wanted, queue length)` packets in queue order, and leaves the rest queued. |
| `Capture.EmitLive` | server.py:47-50 | A live packet is queued behind everything already queued and becomes the last entry of the list. From a list within the cap, the list becomes the most recent 100 packets. From a full list, exactly the oldest entry is dropped. |
| `Capture.EmitSample` | server.py:19-20 | A replayed packet is queued behind everything already queued. It is added at the end of the list, and nothing in the list is evicted. |
| `Capture.Replay` | server.py:18-24 | Replay removes nothing from the list or the queue, adds the same number of packets to both, and adds one per step when it finishes. Characterized fully by `Capture.ReplayAppendsInOrder`. |
| `Capture.Listen` | server.py:34-54 | The receive loop removes nothing from the queue. The list never grows past the larger of its starting length and 100. While no receive has failed, each event has queued one packet. Characterized fully by `Capture.ListenEmitsCaptured`. |
| `Capture.Captured` | server.py:34-45 | The packets the live loop builds are those from the datagrams before the first receive error. Each is well formed and carries its arrival time. Its payload is the whole datagram when that fits in 1024 bytes, and otherwise its first 1024 bytes. |
| `Capture.ListenEmitsCaptured` | server.py:34-54 | Each captured packet is put on the queue exactly once, in arrival order, and goes through the capped append. The loop reports a receive failure exactly when a receive error occurred. |
| `Capture.ListenKeepsStoreBounded` | server.py:47-49 | On the live path, a list within the cap stays within 100 entries and holds the most recent packets. |
| `Capture.ListenStopsAtError` | server.py:52-54 | After a receive error no further packet is produced: later receives change nothing. |
| `Capture.ReplayAppendsInOrder` | server.py:13-24 | Replay appends the records read before the first exception, in file order, to both the list and the queue, and evicts nothing. It reports failure exactly when an exception occurred. |
| `Capture.ReplayStopsAtFirstError` | server.py:23-24 | After an exception in the replay nothing further is added; what was added before it stays. |
| `Capture.SampleReplayIgnoresCapacity` | server.py:18-20 | A sample with no exception grows the list by exactly its records, in order, whatever the list's length: the sample path has no cap, so 101 records from an empty start leave 101 entries. |
| `Capture.RunCapture` | server.py:26-58 | The outcome is a live-listener outcome exactly when the connect succeeded. Nothing already queued is removed, and on the fallback path nothing in the list is evicted. Characterized fully by `Capture.RunCaptureControlFlow`. |
| `Capture.RunCaptureControlFlow` | server.py:26-58 | A failed connect leads to sample replay. A successful connect never replays, even when a receive error ends the loop. Either way each produced packet is queued exactly once, in production order. |
| `Capture.StartupReplay` | server.py:76-82 | The entry point starts the replayer, not the capture task. From the empty startup state, the records put on the list and on the queue are exactly the records read, in file order (with no viewer reading meanwhile, the queue still holds them all). |
| `Capture.ViewerReceivesProduced` | server.py:66-69 | A viewer reading the queue while the capture loop fills it, in any interleaving, receives a prefix of the produced packets in production order; the rest are still queued, and every read it issued is answered or still blocked. |

## Left out

- Socket creation, `connect` and `recv` (server.py:29-38) are operating-system I/O. The connect result is a boolean parameter, and each receive is a `RecvEvent`.
- Packets.Receive: models the Linux behaviour of `recv(1024)` on a longer datagram, which truncates it. On platforms where such a receive raises instead, that is a `RecvError` event.
- Capture.Pipeline: its `queue` field is the queue as the capture loop alone leaves it, with no viewer reading meanwhile. Reads running alongside the capture loop are stated separately, over `DeliveryQueue.Run`, by `Capture.ViewerReceivesProduced`.
- Threads, the daemon flag and the `time.sleep(0.5)` pacing between replayed records (server.py:21, server.py:79-81) are concurrency and real time. The capture task and the viewer are modelled as sequential traces.
- Several viewers draining the one shared queue is a concurrency scenario, not modelled. One consumer reads the queue.
- The wall-clock timestamp (`datetime.now()`, server.py:40) is a parameter. The model keeps only its JSON number text, so nothing is said about monotonicity.
- `json.load` of the sample file (server.py:15-16) is not modelled. Its outcome appears as the replay steps: a record or an exception. Sample records with extra keys, other key orders or non-integer payload entries are outside the model.
- Sample records that lack a `size` key or are not objects at all are outside the model. The replayer queues them without looking inside. The generator's `packet['size']` (server.py:71) then raises, which ends that viewer's stream; the record just taken off the queue is never sent. A `Record` always carries a full packet, so the model cannot express this.
- `json.dumps` (server.py:72) is modelled only for the three-key packet record with integer payload and size, in the key order the record is built. Float formatting is opaque.
- EventStream.Generate: a read from an empty queue blocks in the source. The model ends the session's reads there instead of waiting.
- EventStream.ParseConcatFrames: the splitter it is stated against accepts exactly this framing (one `data: ` field per event). It is not a general server-push event parser.
- The endless `while True` loops (server.py:34, server.py:67) are modelled over finite event sequences. For the listener, running out of events means it is still blocked in a receive.
- Flask routing, `render_template`, `Response` (server.py:60-74) and all `print` logging are web plumbing and output.

=== FILE: capture.dfy ===
/**
  The capture loop: the only writer of the recent-packets list and of the
  delivery queue. It tries the live listener first and falls back to the
  sample replayer when the connect fails.
 */
module Capture {

  import opened Packets
  import opened PacketStore
  import opened DeliveryQueue

  /** The state the capture loop shares with the rest of the process. */
  datatype Pipeline = Pipeline(recent: seq<Packet>, queue: Queue<Packet>)

  /** The state at process start: no recent packets, nothing queued. */
  function Start(): Pipeline
  {
    Pipeline([], Empty())
  }

  /** A live packet goes to the capped list, then onto the queue. */
  function EmitLive(pl: Pipeline, p: Packet): (r: Pipeline)
    ensures r.queue.items == pl.queue.items + [p]
    ensures |r.recent| > 0 && r.recent[|r.recent| - 1] == p
    ensures |pl.recent| <= Capacity ==> r.recent == MostRecent(pl.recent + [p])
    ensures |pl.recent| >= Capacity ==> r.recent == pl.recent[1..] + [p]
  {
    Pipeline(AppendCapped(pl.recent, p), Put(pl.queue, p))
  }

  /** A replayed packet goes to the list with no cap, then onto the queue. */
  function EmitSample(pl: Pipeline, p: Packet): (r: Pipeline)
    ensures r.queue.items == pl.queue.items + [p]
    ensures |r.recent| == |pl.recent| + 1
    ensures r.recent[..|pl.recent|] == pl.recent && r.recent[|pl.recent|] == p
  {
    Pipeline(pl.recent + [p], Put(pl.queue, p))
  }

  /** One pass of the replay loop: the next record of the sample file, or
      an exception. A file that cannot be opened or parsed raises before the
      first record. */
  datatype ReplayStep = Record(p: Packet) | Raise

  datatype ReplayOutcome = Finished | Failed

  /** Replays the sample records in file order; the first exception ends the
      replay and keeps what was already emitted. Nothing already in the list
      or the queue is removed, both gain the same number of packets, and a
      replay that finishes emits one packet per step. */
  function Replay(pl: Pipeline, steps: seq<ReplayStep>): (r: (Pipeline, ReplayOutcome))
    ensures pl.recent <= r.0.recent && pl.queue.items <= r.0.queue.items
    ensures |r.0.recent| - |pl.recent| == |r.0.queue.items| - |pl.queue.items|
    ensures r.1 == Finished ==> |r.0.recent| == |pl.recent| + |steps|
    decreases |steps|
  {
    if steps == [] then (pl, Finished)
    else match steps[0]
      case Raise => (pl, Failed)
      case Record(p) => Replay(EmitSample(pl, p), steps[1..])
  }

  /** The position of the first exception, or `|steps|` if there is none. */
  function FirstRaise(steps: seq<ReplayStep>): (k: nat)
    ensures k <= |steps|
    ensures k < |steps| ==> steps[k].Raise?
    ensures forall i | 0 <= i < k :: steps[i].Record?
    decreases |steps|
  {
    if steps == [] || steps[0].Raise? then 0 else 1 + FirstRaise(steps[1..])
  }

  /** The records read before the first exception, in file order. */
  function Replayed(steps: seq<ReplayStep>): seq<Packet>
  {
    var k := FirstRaise(steps);
    seq(k, i requires 0 <= i < k => steps[i].p)
  }

  lemma FirstRaiseFindsAny(steps: seq<ReplayStep>)
    ensures FirstRaise(steps) < |steps| <==> exists i | 0 <= i < |steps| :: steps[i].Raise?
  {
  }

  lemma ReplayedCons(steps: seq<ReplayStep>)
    requires steps != [] && steps[0].Record?
    ensures Replayed(steps) == [steps[0].p] + Replayed(steps[1..])
  {
    var whole := Replayed(steps);
    var split := [steps[0].p] + Replayed(steps[1..]);
    assert FirstRaise(steps) == 1 + FirstRaise(steps[1..]);
    forall i | 0 <= i < |whole| ensures whole[i] == split[i] {
      if i > 0 {
        assert steps[i] == steps[1..][i - 1];
      }
    }
  }

  lemma {:induction false} ReplayOutcomeAtRaise(pl: Pipeline, steps: seq<ReplayStep>)
    ensures Replay(pl, steps).1 == Failed <==> FirstRaise(steps) < |steps|
    decreases |steps|
  {
    if steps != [] && steps[0].Record? {
      ReplayOutcomeAtRaise(EmitSample(pl, steps[0].p), steps[1..]);
    }
  }

  lemma {:induction false} ReplayListsReplayed(pl: Pipeline, steps: seq<ReplayStep>)
    ensures Replay(pl, steps).0.recent == pl.recent + Replayed(steps)
    decreases |steps|
  {
    if steps != [] && steps[0].Record? {
      var p := steps[0].p;
      var next := EmitSample(pl, p);
      ReplayListsReplayed(next, steps[1..]);
      ReplayedCons(steps);
      assert next.recent == pl.recent + [p];
      assert (pl.recent + [p]) + Replayed(steps[1..]) == pl.recent + ([p] + Replayed(steps[1..]));
    }
  }

  lemma {:induction false} ReplayQueuesReplayed(pl: Pipeline, steps: seq<ReplayStep>)
    ensures Replay(pl, steps).0.queue.items == pl.queue.items + Replayed(steps)
    decreases |steps|
  {
    if steps != [] && steps[0].Record? {
      var p := steps[0].p;
      var next := EmitSample(pl, p);
      ReplayQueuesReplayed(next, steps[1..]);
      ReplayedCons(steps);
      assert (pl.queue.items + [p]) + Replayed(steps[1..]) == pl.queue.items + ([p] + Replayed(steps[1..]));
    }
  }

  /** Replay appends the records read before the first exception, in file
      order, to both the list and the queue, evicting nothing; it reports a
      failure exactly when an exception occurred. */
  lemma ReplayAppendsInOrder(pl: Pipeline, steps: seq<ReplayStep>)
    ensures Replay(pl, steps).0.recent == pl.recent + Replayed(steps)
    ensures Replay(pl, steps).0.queue.items == pl.queue.items + Replayed(steps)
    ensures Replay(pl, steps).1 == Failed <==> exists i | 0 <= i < |steps| :: steps[i].Raise?
  {
    ReplayOutcomeAtRaise(pl, steps);
    FirstRaiseFindsAny(steps);
    ReplayListsReplayed(pl, steps);
    ReplayQueuesReplayed(pl, steps);
  }

  /** Once an exception has occurred, nothing that would have followed it
      is emitted. */
  lemma ReplayStopsAtFirstError(pl: Pipeline, steps: seq<ReplayStep>, later: seq<ReplayStep>)
    requires exists i | 0 <= i < |steps| :: steps[i].Raise?
    ensures Replay(pl, steps + later) == Replay(pl, steps)
  {
    var k := FirstRaise(steps);
    assert k < |steps|;
    var all := steps + later;
    FirstRaiseOfPrefix(steps, later);
    assert Replayed(all) == Replayed(steps);
    ReplayAppendsInOrder(pl, steps);
    ReplayAppendsInOrder(pl, all);
    assert all[k].Raise?;
  }

  lemma FirstRaiseOfPrefix(steps: seq<ReplayStep>, later: seq<ReplayStep>)
    requires FirstRaise(steps) < |steps|
    ensures FirstRaise(steps + later) == FirstRaise(steps)
  {
    var k := FirstRaise(steps);
    assert (steps + later)[k].Raise?;
  }

  /** The sample path ignores the cap: a dataset with no exception grows
      the list by one entry per record, whatever its length, so from an
      empty start 101 records leave 101 entries. */
  lemma SampleReplayIgnoresCapacity(pl: Pipeline, sample: seq<ReplayStep>)
    requires forall i | 0 <= i < |sample| :: sample[i].Record?
    ensures |Replay(pl, sample).0.recent| == |pl.recent| + |sample|
    ensures Replay(pl, sample).0.recent == pl.recent + seq(|sample|, i requires 0 <= i < |sample| => sample[i].p)
  {
    ReplayAppendsInOrder(pl, sample);
    assert Replayed(sample) == seq(|sample|, i requires 0 <= i < |sample| => sample[i].p);
  }

  /** What one receive on the connected socket yields: a datagram, with the
      time it arrived, or an error. */
  datatype RecvEvent = Datagram(at: Timestamp, bytes: seq<byte>) | RecvError

  /** `Waiting` when the listener is still blocked in a receive after the
      given events; `ReceiveFailed` when a receive error ended the loop. */
  datatype ListenOutcome = Waiting | ReceiveFailed

  /** The live receive loop over a connected socket. Nothing already queued
      is removed; the list never grows past the larger of its starting
      length and the cap; while no receive has failed, every event has put
      one packet on the queue. */
  function Listen(pl: Pipeline, events: seq<RecvEvent>): (r: (Pipeline, ListenOutcome))
    ensures pl.queue.items <= r.0.queue.items
    ensures |r.0.recent| <= if |pl.recent| <= Capacity then Capacity else |pl.recent|
    ensures r.1 == Waiting ==> |r.0.queue.items| == |pl.queue.items| + |events|
    decreases |events|
  {
    if events == [] then (pl, Waiting)
    else match events[0]
      case RecvError => (pl, ReceiveFailed)
      case Datagram(at, bytes) => Listen(EmitLive(pl, BuildPacket(at, Receive(bytes))), events[1..])
  }

  /** The position of the first receive error, or `|events|` if there is none. */
  function FirstRecvError(events: seq<RecvEvent>): (k: nat)
    ensures k <= |events|
    ensures k < |events| ==> events[k].RecvError?
    ensures forall i | 0 <= i < k :: events[i].Datagram?
    decreases |events|
  {
    if events == [] || events[0].RecvError? then 0 else 1 + FirstRecvError(events[1..])
  }

  /** The packets built from the datagrams received before the first error. */
  function Captured(events: seq<RecvEvent>): (ps: seq<Packet>)
    ensures |ps| == FirstRecvError(events)
    ensures forall i | 0 <= i < |ps| :: WellFormed(ps[i]) && ps[i].size <= RecvBufferSize
    ensures forall i | 0 <= i < |ps| :: ps[i].timestamp == events[i].at && ps[i].rawData <= events[i].bytes
    ensures forall i | 0 <= i < |ps| :: |events[i].bytes| <= RecvBufferSize ==> ps[i].rawData == events[i].bytes
    ensures forall i | 0 <= i < |ps| ::
      |ps[i].rawData| == if |events[i].bytes| <= RecvBufferSize then |events[i].bytes| else RecvBufferSize
  {
    var k := FirstRecvError(events);
    seq(k, i requires 0 <= i < k => BuildPacket(events[i].at, Receive(events[i].bytes)))
  }

  lemma CapturedCons(events: seq<RecvEvent>)
    requires events != [] && events[0].Datagram?
    ensures Captured(events) == [BuildPacket(events[0].at, Receive(events[0].bytes))] + Captured(events[1..])
  {
    var whole := Captured(events);
    var split := [BuildPacket(events[0].at, Receive(events[0].bytes))] + Captured(events[1..]);
    assert FirstRecvError(events) == 1 + FirstRecvError(events[1..]);
    forall i | 0 <= i < |whole| ensures whole[i] == split[i] {
      if i > 0 {
        assert events[i] == events[1..][i - 1];
      }
    }
  }

  lemma FirstRecvErrorFindsAny(events: seq<RecvEvent>)
    ensures FirstRecvError(events) < |events| <==> exists i | 0 <= i < |events| :: events[i].RecvError?
  {
  }

  lemma {:induction false} ListenOutcomeAtError(pl: Pipeline, events: seq<RecvEvent>)
    ensures Listen(pl, events).1 == ReceiveFailed <==> FirstRecvError(events) < |events|
    decreases |events|
  {
    if events != [] && events[0].Datagram? {
      ListenOutcomeAtError(EmitLive(pl, BuildPacket(events[0].at, Receive(events[0].bytes))), events[1..]);
    }
  }

  lemma {:induction false} ListenQueuesCaptured(pl: Pipeline, events: seq<RecvEvent>)
    ensures Listen(pl, events).0.queue.items == pl.queue.items + Captured(events)
    decreases |events|
  {
    if events != [] && events[0].Datagram? {
      var p := BuildPacket(events[0].at, Receive(events[0].bytes));
      var next := EmitLive(pl, p);
      var rest := Captured(events[1..]);
      assert Listen(pl, events) == Listen(next, events[1..]);
      ListenQueuesCaptured(next, events[1..]);
      CapturedCons(events);
      assert next.queue.items + rest == pl.queue.items + ([p] + rest);
    }
  }

  lemma {:induction false} ListenAppendsCaptured(pl: Pipeline, events: seq<RecvEvent>)
    ensures Listen(pl, events).0.recent == AppendAllCapped(pl.recent, Captured(events))
    decreases |events|
  {
    if events != [] && events[0].Datagram? {
      var p := BuildPacket(events[0].at, Receive(events[0].bytes));
      var next := EmitLive(pl, p);
      var rest := Captured(events[1..]);
      assert Listen(pl, events) == Listen(next, events[1..]);
      ListenAppendsCaptured(next, events[1..]);
      CapturedCons(events);
      var all := [p] + rest;
      assert all[0] == p && all[1..] == rest;
      assert AppendAllCapped(pl.recent, all) == AppendAllCapped(next.recent, rest);
    }
  }

  /** Every packet the listener builds is put on the queue exactly once, in
      arrival order, and goes through the capped append; the loop ends with a
      failure exactly when a receive error occurred. */
  lemma ListenEmitsCaptured(pl: Pipeline, events: seq<RecvEvent>)
    ensures Listen(pl, events).0.queue.items == pl.queue.items + Captured(events)
    ensures Listen(pl, events).0.recent == AppendAllCapped(pl.recent, Captured(events))
    ensures Listen(pl, events).1 == ReceiveFailed <==> exists i | 0 <= i < |events| :: events[i].RecvError?
  {
    ListenOutcomeAtError(pl, events);
    FirstRecvErrorFindsAny(events);
    ListenQueuesCaptured(pl, events);
    ListenAppendsCaptured(pl, events);
  }

  /** Starting within the cap, the live list never exceeds `Capacity` and
      always holds the most recent packets, oldest first. */
  lemma ListenKeepsStoreBounded(pl: Pipeline, events: seq<RecvEvent>)
    requires |pl.recent| <= Capacity
    ensures Listen(pl, events).0.recent == MostRecent(pl.recent + Captured(events))
    ensures |Listen(pl, events).0.recent| <= Capacity
  {
    ListenEmitsCaptured(pl, events);
    AppendAllCappedKeepsMostRecent(pl.recent, Captured(events));
  }

  /** After a receive error no further packet is produced. */
  lemma ListenStopsAtError(pl: Pipeline, events: seq<RecvEvent>, later: seq<RecvEvent>)
    requires exists i | 0 <= i < |events| :: events[i].RecvError?
    ensures Listen(pl, events + later) == Listen(pl, events)
  {
    var k := FirstRecvError(events);
    assert k < |events|;
    var all := events + later;
    assert all[k].RecvError?;
    assert Captured(all) == Captured(events);
    ListenEmitsCaptured(pl, events);
    ListenEmitsCaptured(pl, all);
  }

  datatype CaptureOutcome = Live(listen: ListenOutcome) | Fallback(replay: ReplayOutcome)

  /** The whole capture task: listen if the connect succeeded, otherwise
      replay the sample data. There is no retry and no reconnect. */
  function RunCapture(pl: Pipeline, connected: bool, events: seq<RecvEvent>, sample: seq<ReplayStep>)
    : (r: (Pipeline, CaptureOutcome))
    ensures r.1.Live? <==> connected
    ensures pl.queue.items <= r.0.queue.items
    ensures !connected ==> pl.recent <= r.0.recent
  {
    if connected then
      var (r, outcome) := Listen(pl, events);
      (r, Live(outcome))
    else
      var (r, outcome) := Replay(pl, sample);
      (r, Fallback(outcome))
  }

  /** The packets the capture task produces. */
  function Produced(connected: bool, events: seq<RecvEvent>, sample: seq<ReplayStep>): seq<Packet>
  {
    if connected then Captured(events) else Replayed(sample)
  }

  /** A connect failure leads to replay of the sample data; a successful
      connect never replays, even when a receive error ends the loop. Either
      way each produced packet is queued exactly once, in production order. */
  lemma RunCaptureControlFlow(pl: Pipeline, connected: bool, events: seq<RecvEvent>, sample: seq<ReplayStep>)
    ensures var (r, outcome) := RunCapture(pl, connected, events, sample);
      && r.queue.items == pl.queue.items + Produced(connected, events, sample)
      && (!connected ==> outcome.Fallback? && r.recent == pl.recent + Replayed(sample))
      && (connected ==> outcome.Live? && r.recent == AppendAllCapped(pl.recent, Captured(events)))
      && (connected ==> (outcome.listen == ReceiveFailed <==> exists i | 0 <= i < |events| :: events[i].RecvError?))
  {
    if connected {
      ListenEmitsCaptured(pl, events);
    } else {
      ReplayAppendsInOrder(pl, sample);
    }
  }

  /** At process start the replayer runs on the empty pipeline: afterwards
      the list and the queue both hold exactly the records read, in file
      order. */
  lemma StartupReplay(sample: seq<ReplayStep>)
    ensures Replay(Start(), sample).0.recent == Replayed(sample)
    ensures Replay(Start(), sample).0.queue.items == Replayed(sample)
  {
    var start := Start();
    var empty: seq<Packet> := [];
    assert start.recent == empty && start.queue.items == empty;
    var records := Replayed(sample);
    ReplayListsReplayed(start, sample);
    ReplayQueuesReplayed(start, sample);
    assert empty + records == records;
  }

  /** The viewer running alongside the capture loop: whatever interleaving
      of the capture loop's puts with the viewer's reads happens, the viewer
      receives a prefix of the produced packets, in production order, and
      what it has not yet received is still queued. Every read it issued is
      either answered or still blocked. */
  lemma ViewerReceivesProduced(ops: seq<Op<Packet>>, connected: bool, events: seq<RecvEvent>, sample: seq<ReplayStep>)
    requires Puts(ops) == Produced(connected, events, sample)
    ensures var (final, received) := Run(Channel(Empty(), 0), ops);
      && received + final.queue.items == Produced(connected, events, sample)
      && received <= Produced(connected, events, sample)
      && |received| + final.waiting == Gets(ops)
  {
    RunIsFifo(Channel(Empty(), 0), ops);
  }
}

=== FILE: json.dfy ===
/**
  The JSON text the stream carries for a packet: the three keys in the order
  the record is built (`timestamp`, `raw_data`, `size`), with the default
  separators `", "` between members and `": "` after keys. `Decode` reads
  that text back.
 */
module Json {

  import opened Wrappers
  import opened Packets

  predicate IsDigit(c: char)
  {
    '0' <= c <= '9'
  }

  predicate AllDigits(s: string)
  {
    forall i | 0 <= i < |s| :: IsDigit(s[i])
  }

  function DigitChar(d: nat): (c: char)
    requires d < 10
    ensures IsDigit(c)
  {
    ('0' as int + d) as char
  }

  function DigitValue(c: char): (d: nat)
    requires IsDigit(c)
    ensures d < 10 && DigitChar(d) == c
  {
    c as int - '0' as int
  }

  /** Decimal digits of `n`, most significant first, without leading zeros. */
  function NatToString(n: nat): (s: string)
    ensures |s| > 0 && AllDigits(s)
    decreases n
  {
    if n < 10 then [DigitChar(n)] else NatToString(n / 10) + [DigitChar(n % 10)]
  }

  /** The number a non-empty run of decimal digits denotes. */
  function DigitsValue(s: string): nat
    requires AllDigits(s)
    decreases |s|
  {
    if s == [] then 0 else DigitsValue(s[..|s| - 1]) * 10 + DigitValue(s[|s| - 1])
  }

  lemma {:induction false} NatToStringRoundTrip(n: nat)
    ensures DigitsValue(NatToString(n)) == n
    decreases n
  {
    var s := NatToString(n);
    if n >= 10 {
      NatToStringRoundTrip(n / 10);
      assert s[..|s| - 1] == NatToString(n / 10);
      assert DigitValue(s[|s| - 1]) == n % 10;
    } else {
      assert s[..|s| - 1] == [];
    }
  }

  /** Integer text as the serializer writes it: a minus sign for negatives. */
  function IntToString(i: int): (s: string)
    ensures |s| > 0
    ensures forall k | 0 <= k < |s| :: IsDigit(s[k]) || s[k] == '-'
  {
    if i < 0 then "-" + NatToString(-i) else NatToString(i)
  }

  function ParseNat(s: string): (r: Option<nat>)
    ensures r.Some? ==> |s| > 0 && AllDigits(s)
  {
    if |s| > 0 && AllDigits(s) then Some(DigitsValue(s)) else None
  }

  function ParseInt(s: string): Option<int>
  {
    if |s| > 0 && s[0] == '-' then
      match ParseNat(s[1..])
      case Some(n) => Some(0 - n as int)
      case None => None
    else
      match ParseNat(s)
      case Some(n) => Some(n)
      case None => None
  }

  lemma IntToStringRoundTrip(i: int)
    ensures ParseInt(IntToString(i)) == Some(i)
  {
    if i < 0 {
      NatToStringRoundTrip(-i);
      assert IntToString(i)[1..] == NatToString(-i);
    } else {
      NatToStringRoundTrip(i);
    }
  }

  /** Index of the first `c` in `s`, or `|s|` when there is none. */
  function IndexOf(s: string, c: char): (k: nat)
    ensures k <= |s|
    ensures k < |s| ==> s[k] == c
    ensures forall i | 0 <= i < k :: s[i] != c
    decreases |s|
  {
    if s == [] then 0 else if s[0] == c then 0 else 1 + IndexOf(s[1..], c)
  }

  /** The first `c` in `a + b` is the first character of `b` when `a` has no `c`. */
  lemma IndexOfAfter(a: string, b: string, c: char)
    requires forall i | 0 <= i < |a| :: a[i] != c
    requires |b| > 0 && b[0] == c
    ensures IndexOf(a + b, c) == |a|
  {
    var k := IndexOf(a + b, c);
    assert (a + b)[|a|] == c;
  }

  lemma IndexOfAbsent(a: string, c: char)
    requires forall i | 0 <= i < |a| :: a[i] != c
    ensures IndexOf(a, c) == |a|
  {
  }

  /** The elements of an integer array, separated by `", "`. */
  function JoinInts(xs: seq<int>): string
    decreases |xs|
  {
    if xs == [] then ""
    else if |xs| == 1 then IntToString(xs[0])
    else IntToString(xs[0]) + (", " + JoinInts(xs[1..]))
  }

  /** Reads the text between the brackets of a non-empty integer array. */
  function ParseItems(s: string): Option<seq<int>>
    decreases |s|
  {
    var k := IndexOf(s, ',');
    match ParseInt(s[..k])
    case None => None
    case Some(v) =>
      if k == |s| then Some([v])
      else if k + 1 < |s| && s[k + 1] == ' ' then
        match ParseItems(s[k + 2..])
        case None => None
        case Some(vs) => Some([v] + vs)
      else None
  }

  function ParseIntList(s: string): Option<seq<int>>
  {
    if s == "" then Some([]) else ParseItems(s)
  }

  lemma IntToStringHasNo(i: int, c: char)
    requires !IsDigit(c) && c != '-'
    ensures Lacks(IntToString(i), c)
  {
  }

  lemma ParseItemsOne(x: int)
    ensures ParseItems(IntToString(x)) == Some([x])
  {
    var head := IntToString(x);
    IntToStringHasNo(x, ',');
    IndexOfAbsent(head, ',');
    assert head[..|head|] == head;
    IntToStringRoundTrip(x);
  }

  lemma ParseItemsMore(x: int, rest: string, vs: seq<int>)
    requires ParseItems(rest) == Some(vs)
    ensures ParseItems(IntToString(x) + (", " + rest)) == Some([x] + vs)
  {
    var head := IntToString(x);
    var s := head + (", " + rest);
    IntToStringHasNo(x, ',');
    IndexOfAfter(head, ", " + rest, ',');
    assert s[..|head|] == head;
    assert s[|head| + 2..] == rest;
    IntToStringRoundTrip(x);
  }

  lemma {:induction false} JoinItemsRoundTrip(xs: seq<int>)
    requires xs != []
    ensures JoinInts(xs) != "" && ParseItems(JoinInts(xs)) == Some(xs)
    decreases |xs|
  {
    if |xs| == 1 {
      ParseItemsOne(xs[0]);
      assert xs == [xs[0]];
    } else {
      JoinItemsRoundTrip(xs[1..]);
      ParseItemsMore(xs[0], JoinInts(xs[1..]), xs[1..]);
      assert [xs[0]] + xs[1..] == xs;
    }
  }

  lemma JoinIntsRoundTrip(xs: seq<int>)
    ensures ParseIntList(JoinInts(xs)) == Some(xs)
  {
    if xs != [] {
      JoinItemsRoundTrip(xs);
    }
  }

  /** No occurrence of `c` in `s`. */
  predicate Lacks(s: string, c: char)
  {
    forall i | 0 <= i < |s| :: s[i] != c
  }

  lemma LacksConcat(a: string, b: string, c: char)
    requires Lacks(a, c) && Lacks(b, c)
    ensures Lacks(a + b, c)
  {
    assert forall i | |a| <= i < |a + b| :: (a + b)[i] == b[i - |a|];
  }

  lemma TimestampLacks(t: Timestamp, c: char)
    requires !NumberChar(c)
    ensures Lacks(t, c)
  {
    forall i | 0 <= i < |t| ensures t[i] != c {
      assert NumberChar(t[i]);
    }
  }

  const TimestampKey: string := "{\"timestamp\": "
  const RawDataKey: string := ", \"raw_data\": ["
  const SizeKey: string := "], \"size\": "

  /** What follows the opening bracket of `raw_data`. */
  function SerializeTail(raw: seq<int>, size: int): string
  {
    JoinInts(raw) + (SizeKey + (IntToString(size) + "}"))
  }

  /** The JSON object for a packet. */
  function Serialize(p: Packet): (r: string)
    ensures TimestampKey <= r && |TimestampKey| + |p.timestamp| < |r|
    ensures r[|TimestampKey|..|TimestampKey| + |p.timestamp|] == p.timestamp
    ensures r[|r| - 1] == '}'
  {
    TimestampKey + (p.timestamp + (RawDataKey + SerializeTail(p.rawData, p.size)))
  }

  /** Reads back the JSON object `Serialize` writes; `None` for any text not
      of that shape, except that integer fields may carry leading zeros,
      which `Serialize` never writes. */
  function Decode(s: string): Option<Packet>
  {
    if TimestampKey <= s then DecodeFields(s[|TimestampKey|..]) else None
  }

  function DecodeFields(a: string): Option<Packet>
  {
    var k := IndexOf(a, ',');
    var stamp := a[..k];
    var b := a[k..];
    if IsNumberText(stamp) && RawDataKey <= b then
      match DecodeTail(b[|RawDataKey|..])
      case Some((raw, size)) => Some(Packet(stamp, raw, size))
      case None => None
    else None
  }

  function DecodeTail(c: string): Option<(seq<int>, int)>
  {
    var m := IndexOf(c, ']');
    var items := c[..m];
    var d := c[m..];
    if SizeKey <= d then
      var e := d[|SizeKey|..];
      if e != [] && e[|e| - 1] == '}' then
        match (ParseIntList(items), ParseInt(e[..|e| - 1]))
        case (Some(raw), Some(size)) => Some((raw, size))
        case _ => None
      else None
    else None
  }

  lemma DecodeTailRoundTrip(raw: seq<int>, size: int)
    ensures DecodeTail(SerializeTail(raw, size)) == Some((raw, size))
  {
    var items := JoinInts(raw);
    var d := SizeKey + (IntToString(size) + "}");
    var c := items + d;
    JoinIntsHasNo(raw, ']');
    assert d[0] == ']';
    IndexOfAfter(items, d, ']');
    assert c[..|items|] == items;
    assert c[|items|..] == d;
    var e := IntToString(size) + "}";
    assert d[|SizeKey|..] == e;
    assert e[..|e| - 1] == IntToString(size);
    JoinIntsRoundTrip(raw);
    IntToStringRoundTrip(size);
  }

  lemma DecodeFieldsRoundTrip(t: Timestamp, c: string)
    ensures DecodeFields(t + (RawDataKey + c)) == match DecodeTail(c)
      case Some((raw, size)) => Some(Packet(t, raw, size))
      case None => None
  {
    var stamp: string := t;
    var b := RawDataKey + c;
    var a := stamp + b;
    TimestampLacks(t, ',');
    assert b[0] == ',';
    IndexOfAfter(stamp, b, ',');
    assert a[..|stamp|] == stamp;
    assert a[|stamp|..] == b;
    assert b[|RawDataKey|..] == c;
  }

  /** Every packet, live or replayed, reads back from its JSON text unchanged. */
  lemma SerializeRoundTrip(p: Packet)
    ensures Decode(Serialize(p)) == Some(p)
  {
    var tail := SerializeTail(p.rawData, p.size);
    var a := p.timestamp + (RawDataKey + tail);
    assert Serialize(p) == TimestampKey + a;
    assert Serialize(p)[|TimestampKey|..] == a;
    DecodeFieldsRoundTrip(p.timestamp, tail);
    DecodeTailRoundTrip(p.rawData, p.size);
  }

  lemma {:induction false} JoinIntsHasNo(xs: seq<int>, c: char)
    requires !IsDigit(c) && c != '-' && c != ',' && c != ' '
    ensures Lacks(JoinInts(xs), c)
    decreases |xs|
  {
    if xs != [] {
      IntToStringHasNo(xs[0], c);
      if |xs| > 1 {
        JoinIntsHasNo(xs[1..], c);
        LacksConcat(", ", JoinInts(xs[1..]), c);
        LacksConcat(IntToString(xs[0]), ", " + JoinInts(xs[1..]), c);
      }
    }
  }

  lemma KeysLackNewline()
    ensures Lacks(TimestampKey, '\n') && Lacks(RawDataKey, '\n')
    ensures Lacks(SizeKey, '\n') && Lacks("}", '\n')
  {
  }

  lemma TailHasNoNewline(raw: seq<int>, size: int)
    ensures Lacks(SerializeTail(raw, size), '\n')
  {
    KeysLackNewline();
    JoinIntsHasNo(raw, '\n');
    IntToStringHasNo(size, '\n');
    LacksConcat(IntToString(size), "}", '\n');
    LacksConcat(SizeKey, IntToString(size) + "}", '\n');
    LacksConcat(JoinInts(raw), SizeKey + (IntToString(size) + "}"), '\n');
  }

  /** The serialized text is a single line. */
  lemma SerializeHasNoNewline(p: Packet)
    ensures Lacks(Serialize(p), '\n')
  {
    var tail := SerializeTail(p.rawData, p.size);
    KeysLackNewline();
    TailHasNoNewline(p.rawData, p.size);
    LacksConcat(RawDataKey, tail, '\n');
    TimestampLacks(p.timestamp, '\n');
    LacksConcat(p.timestamp, RawDataKey + tail, '\n');
    LacksConcat(TimestampKey, p.timestamp + (RawDataKey + tail), '\n');
  }
}

=== FILE: packets.dfy ===
/**
  Packets: the record a captured or replayed datagram becomes, and the
  receive step that produces the bytes of a live one.
 */
module Packets {

  /** One octet as handed over by the socket layer. */
  type byte = x: int | 0 <= x < 256

  /** The buffer size the live listener passes to each receive. */
  const RecvBufferSize: nat := 1024

  /** Characters that can occur in the JSON rendering of a number
      (including the `Infinity` and `NaN` spellings of the serializer).
      They are defined here rather than in `Json` because a timestamp is
      kept as exactly that rendering, and `Json` builds on this module. */
  predicate NumberChar(c: char)
  {
    c in "0123456789.eE+-InfinityaN"
  }

  predicate IsNumberText(s: string)
  {
    forall i | 0 <= i < |s| :: NumberChar(s[i])
  }

  /** A capture time. Its value is opaque to the pipeline; only its textual
      rendering, which the event stream carries, is kept. The type
      over-approximates on purpose: it admits every string over the number
      characters, including ones such as `""` or `"aN"` that no number
      renders to. All the model relies on is that the text has no comma,
      bracket or line break. */
  type Timestamp = s: string | IsNumberText(s) witness "0"

  /** One unit of data flowing through the pipeline. Replayed packets come
      from a file and are taken as they are, so nothing here forces `size`
      to agree with `rawData`; see `WellFormed`. */
  datatype Packet = Packet(timestamp: Timestamp, rawData: seq<int>, size: int)

  /** The invariant every live-captured packet satisfies: the size field is
      the payload length and every payload entry is a byte value. */
  predicate WellFormed(p: Packet)
  {
    && p.size == |p.rawData|
    && forall i | 0 <= i < |p.rawData| :: 0 <= p.rawData[i] < 256
  }

  /** One receive on a connected datagram socket with a buffer of
      `RecvBufferSize` bytes: a longer datagram is cut to the buffer size and
      the excess is lost; a shorter one arrives whole. */
  function Receive(datagram: seq<byte>): (r: seq<byte>)
    ensures |r| <= RecvBufferSize
    ensures r <= datagram
    ensures |datagram| <= RecvBufferSize ==> r == datagram
    ensures |datagram| > RecvBufferSize ==> |r| == RecvBufferSize
  {
    if |datagram| <= RecvBufferSize then datagram else datagram[..RecvBufferSize]
  }

  /** The record built for received bytes `data` at time `now`. */
  function BuildPacket(now: Timestamp, data: seq<byte>): (p: Packet)
    ensures WellFormed(p)
    ensures p.timestamp == now
    ensures p.size == |data|
    ensures forall i | 0 <= i < |data| :: p.rawData[i] == data[i]
  {
    Packet(now, data, |data|)
  }
}

=== FILE: queue.dfy ===
/**
  The hand-off queue between the capture loop (the only producer) and the
  stream generator (the consumer). A read from an empty queue blocks; the
  next put then goes straight to the blocked reader.
 */
module DeliveryQueue {

  import opened Wrappers

  datatype Queue<T> = Queue(items: seq<T>)

  function Empty<T>(): Queue<T>
  {
    Queue([])
  }

  /** Adds `x` behind everything already queued: the element a read would
      take next is unchanged, unless the queue was empty. */
  function Put<T>(q: Queue<T>, x: T): (r: Queue<T>)
    ensures |r.items| == |q.items| + 1
    ensures q.items == [] ==> Get(r) == Some((x, q))
    ensures q.items != [] ==> Get(r).Some? && Get(r).value.0 == q.items[0]
    ensures q.items != [] ==> Get(r).value.1.items == q.items[1..] + [x]
  {
    Queue(q.items + [x])
  }

  /** The non-blocking half of a read: the oldest element and the queue
      without it, or `None` when a reader would have to wait. */
  function Get<T>(q: Queue<T>): (r: Option<(T, Queue<T>)>)
    ensures r.None? <==> q.items == []
    ensures r.Some? ==> q.items == [r.value.0] + r.value.1.items
  {
    if q.items == [] then None else Some((q.items[0], Queue(q.items[1..])))
  }

  /** One operation on the queue, by the producer or by the consumer. */
  datatype Op<T> = PutOp(x: T) | GetOp

  /** The queue together with the number of reads blocked on it. */
  datatype Channel<T> = Channel(queue: Queue<T>, waiting: nat)

  /** Reads only block on an empty queue. */
  predicate Consistent<T>(c: Channel<T>)
  {
    c.waiting > 0 ==> c.queue.items == []
  }

  /** Runs `ops` in order on `c`, returning the final channel and the
      elements the consumer received, in the order it received them. A read
      that finds the queue empty blocks; a put while a read is blocked hands
      its element to that read instead of queueing it. */
  function Run<T>(c: Channel<T>, ops: seq<Op<T>>): (Channel<T>, seq<T>)
    decreases |ops|
  {
    if ops == [] then (c, [])
    else match ops[0]
      case PutOp(x) =>
        if c.waiting > 0 then
          var (final, received) := Run(Channel(c.queue, c.waiting - 1), ops[1..]);
          (final, [x] + received)
        else Run(Channel(Put(c.queue, x), 0), ops[1..])
      case GetOp =>
        match Get(c.queue)
        case None => Run(Channel(c.queue, c.waiting + 1), ops[1..])
        case Some((x, q')) =>
          var (final, received) := Run(Channel(q', c.waiting), ops[1..]);
          (final, [x] + received)
  }

  /** The elements the producer put, in the order it put them. */
  function Puts<T>(ops: seq<Op<T>>): seq<T>
    decreases |ops|
  {
    if ops == [] then []
    else match ops[0]
      case PutOp(x) => [x] + Puts(ops[1..])
      case GetOp => Puts(ops[1..])
  }

  /** The number of reads the consumer issued. */
  function Gets<T>(ops: seq<Op<T>>): nat
    decreases |ops|
  {
    if ops == [] then 0
    else match ops[0]
      case PutOp(_) => Gets(ops[1..])
      case GetOp => 1 + Gets(ops[1..])
  }

  lemma {:induction false} RunKeepsOrder<T>(c: Channel<T>, ops: seq<Op<T>>)
    requires Consistent(c)
    ensures Run(c, ops).1 + Run(c, ops).0.queue.items == c.queue.items + Puts(ops)
    decreases |ops|
  {
    if ops != [] {
      match ops[0]
      case PutOp(x) =>
        if c.waiting > 0 {
          var c' := Channel(c.queue, c.waiting - 1);
          RunKeepsOrder(c', ops[1..]);
          assert c.queue.items + Puts(ops) == [x] + (c'.queue.items + Puts(ops[1..]));
        } else {
          var c' := Channel(Put(c.queue, x), 0);
          RunKeepsOrder(c', ops[1..]);
          assert c.queue.items + Puts(ops) == c'.queue.items + Puts(ops[1..]);
        }
      case GetOp =>
        match Get(c.queue)
        case None =>
          RunKeepsOrder(Channel(c.queue, c.waiting + 1), ops[1..]);
        case Some((x, q')) =>
          RunKeepsOrder(Channel(q', c.waiting), ops[1..]);
          var (final, received) := Run(Channel(q', c.waiting), ops[1..]);
          assert Run(c, ops).1 + Run(c, ops).0.queue.items == [x] + (received + final.queue.items);
          assert c.queue.items + Puts(ops) == [x] + (q'.items + Puts(ops[1..]));
    }
  }

  lemma {:induction false} RunAnswersReads<T>(c: Channel<T>, ops: seq<Op<T>>)
    requires Consistent(c)
    ensures |Run(c, ops).1| + Run(c, ops).0.waiting == c.waiting + Gets(ops)
    ensures Consistent(Run(c, ops).0)
    decreases |ops|
  {
    if ops != [] {
      match ops[0]
      case PutOp(x) =>
        if c.waiting > 0 {
          RunAnswersReads(Channel(c.queue, c.waiting - 1), ops[1..]);
        } else {
          RunAnswersReads(Channel(Put(c.queue, x), 0), ops[1..]);
        }
      case GetOp =>
        match Get(c.queue)
        case None =>
          RunAnswersReads(Channel(c.queue, c.waiting + 1), ops[1..]);
        case Some((x, q')) =>
          RunAnswersReads(Channel(q', c.waiting), ops[1..]);
    }
  }

  /** First in, first out, nothing lost and nothing duplicated: whatever was
      queued or put is either received, in order, or still queued, in order,
      so the consumer receives a prefix of it. No read is lost either: every
      read issued is either answered or still blocked, and reads stay blocked
      only while the queue is empty. */
  lemma RunIsFifo<T>(c: Channel<T>, ops: seq<Op<T>>)
    requires Consistent(c)
    ensures Run(c, ops).1 + Run(c, ops).0.queue.items == c.queue.items + Puts(ops)
    ensures Run(c, ops).1 <= c.queue.items + Puts(ops)
    ensures |Run(c, ops).1| + Run(c, ops).0.waiting == c.waiting + Gets(ops)
    ensures Consistent(Run(c, ops).0)
  {
    RunKeepsOrder(c, ops);
    RunAnswersReads(c, ops);
  }

  /** A read that blocks on an empty queue receives the next element put,
      which is then not left in the queue, and whatever follows runs as if
      neither operation had happened. */
  lemma BlockedReadTakesNextPut<T>(x: T, ops: seq<Op<T>>)
    ensures var start := Channel(Empty<T>(), 0);
      Run(start, [GetOp, PutOp(x)] + ops) == (Run(start, ops).0, [x] + Run(start, ops).1)
  {
    var start := Channel(Empty<T>(), 0);
    var all := [GetOp, PutOp(x)] + ops;
    assert all[0] == GetOp && all[1..] == [PutOp(x)] + ops;
    assert Run(start, all) == Run(Channel(Empty<T>(), 1), [PutOp(x)] + ops);
    assert ([PutOp(x)] + ops)[0] == PutOp(x) && ([PutOp(x)] + ops)[1..] == ops;
  }
}

=== FILE: store.dfy ===
/**
  The list of recent packets, generic in the element type since only the
  order of entries matters to it. The live listener appends with a cap of
  `Capacity` entries, evicting the oldest; the sample replayer appends with
  no cap at all (see `Capture.EmitSample`).
 */
module PacketStore {

  const Capacity: nat := 100

  /** The last `Capacity` elements of `s`, or all of `s` when it is shorter:
      what a store that keeps only the most recent entries should hold. */
  function MostRecent<T>(s: seq<T>): (r: seq<T>)
    ensures |r| <= Capacity
  {
    if |s| <= Capacity then s else s[|s| - Capacity..]
  }

  /** The live-capture append: add `p` at the end, then drop the first
      element once the list holds more than `Capacity` entries. */
  function AppendCapped<T>(recent: seq<T>, p: T): (r: seq<T>)
    ensures |recent| <= Capacity ==> |r| <= Capacity && r == MostRecent(recent + [p])
    ensures |r| > 0 && r[|r| - 1] == p
    ensures |recent| < Capacity ==> r == recent + [p]
    ensures |recent| >= Capacity ==> |r| == |recent| && r == recent[1..] + [p]
  {
    var appended := recent + [p];
    if |appended| > Capacity then appended[1..] else appended
  }

  /** Appending `ps` one at a time, as the live listener does. */
  function AppendAllCapped<T>(recent: seq<T>, ps: seq<T>): seq<T>
    decreases |ps|
  {
    if ps == [] then recent else AppendAllCapped(AppendCapped(recent, ps[0]), ps[1..])
  }

  /** Taking the most recent entries of a longer history gives the same
      result once the history kept is already full or is the whole history. */
  lemma MostRecentOfSuffix<T>(a: seq<T>, b: seq<T>)
    ensures MostRecent(MostRecent(a) + b) == MostRecent(a + b)
  {
    if |a| > Capacity {
      var k := |a| - Capacity;
      var s := a + b;
      var t := a[k..] + b;
      assert t == s[k..];
      var m := |t| - Capacity;
      assert t[m..] == s[k + m..];
    }
  }

  lemma SplitFirst<T>(recent: seq<T>, ps: seq<T>)
    requires ps != []
    ensures recent + [ps[0]] + ps[1..] == recent + ps
  {
    assert [ps[0]] + ps[1..] == ps;
  }

  /** Over any run of live appends that starts within the cap, the list holds
      the most recent `Capacity` packets of the whole history, oldest first,
      and never more than `Capacity` of them. */
  lemma {:induction false} AppendAllCappedKeepsMostRecent<T>(recent: seq<T>, ps: seq<T>)
    requires |recent| <= Capacity
    ensures AppendAllCapped(recent, ps) == MostRecent(recent + ps)
    ensures |AppendAllCapped(recent, ps)| <= Capacity
    decreases |ps|
  {
    if ps != [] {
      var next := AppendCapped(recent, ps[0]);
      AppendAllCappedKeepsMostRecent(next, ps[1..]);
      calc {
        AppendAllCapped(recent, ps);
        AppendAllCapped(next, ps[1..]);
        MostRecent(next + ps[1..]);
        MostRecent(MostRecent(recent + [ps[0]]) + ps[1..]);
        { MostRecentOfSuffix(recent + [ps[0]], ps[1..]); }
        MostRecent(recent + [ps[0]] + ps[1..]);
        { SplitFirst(recent, ps); }
        MostRecent(recent + ps);
      }
    }
  }
}

=== FILE: stream.dfy ===
/**
  The stream a viewer receives: each packet taken from the delivery queue
  becomes one server-push event, the field name `data: `, the packet's JSON
  text, and a blank line.
 */
module EventStream {

  import opened Wrappers
  import opened Packets
  import opened Json
  import opened DeliveryQueue

  const DataField: string := "data: "
  const EventEnd: string := "\n\n"

  /** One event carrying `payload`. */
  function Frame(payload: string): (e: string)
    ensures |e| == |DataField| + |payload| + |EventEnd|
    ensures DataField <= e
    ensures e[|DataField|..|DataField| + |payload|] == payload
    ensures e[|e| - 2..] == EventEnd
  {
    DataField + payload + EventEnd
  }

  /** The event the stream generator sends for `p`. */
  function Event(p: Packet): (e: string)
    ensures |e| == |DataField| + |Serialize(p)| + |EventEnd|
    ensures DataField <= e && e[|e| - 2..] == EventEnd
    ensures e[|DataField|..|e| - 2] == Serialize(p)
  {
    Frame(Serialize(p))
  }

  /** The text of several events sent one after another. */
  function Concat(events: seq<string>): string
    decreases |events|
  {
    if events == [] then "" else events[0] + Concat(events[1..])
  }

  /** Splits a stream of events back into their payloads, the way a client
      reads it: `data: `, then the payload up to the first line break, then
      the blank line. `None` for a stream not made of such events. */
  function ParseEvents(s: string): Option<seq<string>>
    decreases |s|
  {
    if s == "" then Some([])
    else if !(DataField <= s) then None
    else
      var body := s[|DataField|..];
      var k := IndexOf(body, '\n');
      if k + 1 < |body| && body[k + 1] == '\n' then
        match ParseEvents(body[k + 2..])
        case None => None
        case Some(rest) => Some([body[..k]] + rest)
      else None
  }

  lemma ParseFrame(payload: string, rest: string)
    requires Lacks(payload, '\n')
    ensures ParseEvents(Frame(payload) + rest) == match ParseEvents(rest)
      case None => None
      case Some(tail) => Some([payload] + tail)
  {
    var s := Frame(payload) + rest;
    var body := payload + (EventEnd + rest);
    assert s == DataField + body;
    assert s[|DataField|..] == body;
    IndexOfAfter(payload, EventEnd + rest, '\n');
    assert body[..|payload|] == payload;
    assert body[|payload| + 2..] == rest;
  }

  /** One event per payload, in order. */
  function FrameAll(payloads: seq<string>): (events: seq<string>)
    ensures |events| == |payloads|
    ensures forall i | 0 <= i < |payloads| :: events[i] == Frame(payloads[i])
    decreases |payloads|
  {
    if payloads == [] then [] else [Frame(payloads[0])] + FrameAll(payloads[1..])
  }

  /** A client splitting the stream recovers exactly the payloads sent, in
      order, one per event, provided no payload spans a line break. */
  lemma {:induction false} ParseConcatFrames(payloads: seq<string>)
    requires forall i | 0 <= i < |payloads| :: Lacks(payloads[i], '\n')
    ensures ParseEvents(Concat(FrameAll(payloads))) == Some(payloads)
    decreases |payloads|
  {
    if payloads != [] {
      var tail := payloads[1..];
      ParseConcatFrames(tail);
      var frames := FrameAll(payloads);
      assert frames[1..] == FrameAll(tail);
      ParseFrame(payloads[0], Concat(FrameAll(tail)));
      assert [payloads[0]] + tail == payloads;
    }
  }

  /** The events a viewer receives for `ps` read back, event by event, as
      the packets themselves, in the order they were sent. */
  lemma ViewerRecoversPackets(ps: seq<Packet>)
    ensures var events := seq(|ps|, i requires 0 <= i < |ps| => Event(ps[i]));
      var payloads := seq(|ps|, i requires 0 <= i < |ps| => Serialize(ps[i]));
      && ParseEvents(Concat(events)) == Some(payloads)
      && forall i | 0 <= i < |ps| :: Decode(payloads[i]) == Some(ps[i])
  {
    var payloads := seq(|ps|, i requires 0 <= i < |ps| => Serialize(ps[i]));
    forall i | 0 <= i < |ps|
      ensures Lacks(payloads[i], '\n') && Decode(payloads[i]) == Some(ps[i])
    {
      SerializeHasNoNewline(ps[i]);
      SerializeRoundTrip(ps[i]);
    }
    ParseConcatFrames(payloads);
    EventsFrameJson(ps, payloads);
  }

  /** The events for `ps` are the frames of their JSON texts. */
  lemma EventsFrameJson(ps: seq<Packet>, payloads: seq<string>)
    requires payloads == seq(|ps|, i requires 0 <= i < |ps| => Serialize(ps[i]))
    ensures FrameAll(payloads) == seq(|ps|, i requires 0 <= i < |ps| => Event(ps[i]))
  {
  }

  /** One viewer session: the generator takes packets off the queue one at a
      time and sends one event for each. The session reads `wanted` packets
      before the client goes away, or stops early where a read would block
      because the queue is empty. */
  method Generate(q: Queue<Packet>, wanted: nat) returns (events: seq<string>, rest: Queue<Packet>)
    ensures |events| == if wanted <= |q.items| then wanted else |q.items|
    ensures forall i | 0 <= i < |events| :: events[i] == Event(q.items[i])
    ensures rest.items == q.items[|events|..]
  {
    events := [];
    rest := q;
    var n := 0;
    while n < wanted
      invariant n <= wanted && n <= |q.items|
      invariant |events| == n
      invariant forall i | 0 <= i < n :: events[i] == Event(q.items[i])
      invariant rest.items == q.items[n..]
    {
      match Get(rest)
      case None =>
        return;
      case Some((p, remaining)) =>
        events := events + [Event(p)];
        rest := remaining;
        n := n + 1;
    }
  }
}

=== FILE: wrappers.dfy ===
/** Optional values, used wherever the modelled code can come back empty-handed. */
module Wrappers {

  datatype Option<+T> = None | Some(value: T)
}
